=== FILE: README.md ===
# Sampler specialisation in SwiftShader, modelled in Dafny

SwiftShader is a software implementation of Vulkan. When a shader samples an
image, the driver asks for a sampling routine specialised to one image view
and one sampler object. `getImageSampler` looks the pair up in a
process-wide cache keyed by the two 32-bit object ids. On a miss it builds
the routine once and publishes it. Building means two things. First,
translating the Vulkan view and sampler state into the sampler state of the
texture engine (`convertTextureType`, `convertFilterMode`,
`convertMipmapMode`, `convertAddressingMode`, and the asserts of
`emitSamplerFunction`). Second, emitting code that reads the coordinates
and the optional LOD operand, calls the engine, and writes the four colour
channels.

The model has seven modules:

- `Results` (results.dfy): the `Result` and `Option` wrappers. Every
  `UNIMPLEMENTED` arm and every failed `ASSERT` of the driver becomes a
  `Failure`, so a rejected input never yields a state or a routine.
- `Vulkan` (vulkan.dfy): the image view and sampler fields the translation
  reads. Filters, mipmap modes and address modes carry an `Other…(code)`
  constructor. It stands for an enumerant the driver does not name, such as
  the cubic filter of an extension, so the `default:` arms are reachable.
- `SamplerState` (sampler_state.dfy): the engine's sampler state and the
  closed error type. `UnsupportedConfiguration` names the rejected field
  and value. `PreconditionViolated` names the feature that was asserted off.
- `Translator` (translator.dfy): the four converters and `Translate`, the
  state-building prologue of `emitSamplerFunction`.
- `SamplingRoutine` (routine.dfy): the coordinate count, the operand
  threading, the invocation with the engine as a parameter, and
  `EmitSampler`.
- `SpecialisationCache` (cache.dfy): the key packing, and a cache that is
  generic in the stored value and in the build. `Acquire` is the
  lookup-or-insert. `AcquireAll` serves a sequence of requests.
- `ImageSampler` (image_sampler.dfy): `getImageSampler` and its two entry
  points, the cache instantiated with sampling routines.

Two points of the code shape the model:

- **Check order.** In `emitSamplerFunction`, the asserts on the sampler
  features (lines 94-101) run after the enum conversions (lines 83-90).
  `Translate` keeps this order: a precondition error is reported only when
  every enum field is supported. Among the enum fields, the first one that
  fails is reported, in the order view type, magnification filter,
  minification filter, address modes U, V and W, then mipmap mode. Among
  the features the order is compare, LOD bias, anisotropy, then
  unnormalised coordinates.
- **Unwritten coordinate slots.** `uvw` is written only for the coordinates
  the routine reads and for the 1D override of the second slot (lines
  133-139). The other slots are left unwritten, and the model leaves them
  as `None`.

## Model

| member | source | states |
|---|---|---|
| Translator.ConvertTextureType | src/Pipeline/SpirvShaderSampling.cpp:157-172 | succeeds exactly for 1D, 2D and cube views; the texture type produced names the view type it came from; 3D and all array views fail naming the view type |
| Translator.ConvertFilterMode | src/Pipeline/SpirvShaderSampling.cpp:174-202 | succeeds exactly when both filters are Nearest or Linear; the combined type's magnification and minification halves are the two inputs; an unnamed magnification filter is reported before the minification filter is looked at |
| Translator.FilterTableIsBijection | src/Pipeline/SpirvShaderSampling.cpp:174-202 | every combined filter type is the image of its own (mag, min) pair, and two accepted pairs with the same image are equal |
| Translator.ConvertMipmapMode | src/Pipeline/SpirvShaderSampling.cpp:204-214 | Nearest and Linear translate to the mipmap type naming them; any other mode fails naming the mode |
| Translator.ConvertAddressingMode | src/Pipeline/SpirvShaderSampling.cpp:216-249 | cube and cube-array views give seamless addressing for every address mode; 1D and 2D views give a non-seamless mode naming the requested one for the five named modes and fail on any other; other view types fail naming the view type |
| Translator.Translate | src/Pipeline/SpirvShaderSampling.cpp:82-101 | succeeds exactly when every enum field is supported and compare, nonzero LOD bias, anisotropy and unnormalised coordinates are all off; on success every field is recoverable from the inputs, compare is bypassed and high-precision filtering is off; the error is that of the first failing check in source order: view type, magnification filter, minification filter, address modes U, V, W (skipped for cubes), mipmap mode, then compare, LOD bias, anisotropy and unnormalised coordinates, each naming the offending field or feature |
| Translator.TranslateReachesEveryProducibleState | src/Pipeline/SpirvShaderSampling.cpp:82-101 | every state with compare bypassed, plain precision, sRGB taken from the format and seamless addressing exactly for cubes is the translation of some view and sampler, so such states are exactly what translation can produce |
| SamplingRoutine.CoordinateCount | src/Pipeline/SpirvShaderSampling.cpp:114-126 | the routine's own view-type switch accepts exactly the view types the translation accepts and gives 1, 2 and 3 coordinates, the dimensions of the texture type translation produced |
| SamplingRoutine.ReadRequest | src/Pipeline/SpirvShaderSampling.cpp:105-146 | the coordinates come from operands 0 to count-1; a 1D or 1D-array routine forces the second coordinate to 0; slots past the count stay unwritten; the projective coordinate is 0; an explicit-LOD routine reads its LOD at index count, an implicit one uses bias 0 |
| SamplingRoutine.ReadsOnlyDeclaredOperands | src/Pipeline/SpirvShaderSampling.cpp:128-146 | two input rows that agree on the coordinate operands (and the LOD for explicit LOD) give the same engine request, so an implicit-LOD routine never reads the operand after its coordinates |
| SamplingRoutine.OneDimensionalIsDegenerate2D | src/Pipeline/SpirvShaderSampling.cpp:133-139 | a 1D routine given `x` hands the engine exactly what a two-coordinate routine with the same (1D) state hands it for `x, 0` |
| SamplingRoutine.Invoke | src/Pipeline/SpirvShaderSampling.cpp:148-154 | the output holds four channels, the engine's R, G, B and A for the routine's request, in that order |
| SamplingRoutine.OneDimensionalInvokeIsDegenerate2D | src/Pipeline/SpirvShaderSampling.cpp:133-154 | the four channels written by a 1D routine for `x` equal those written by the same-state two-coordinate routine for `x, 0` |
| SamplingRoutine.EmitSampler | src/Pipeline/SpirvShaderSampling.cpp:77-126 | a routine is built exactly when translation succeeds, with the translated state, the requested method, the view type and the texture type's coordinate count; otherwise the translation's error |
| SpecialisationCache.PackKey | src/Pipeline/SpirvShaderSampling.cpp:59 | shifting the key right by 32 gives the view id back and masking it to 32 bits gives the sampler id, so packing is injective |
| SpecialisationCache.Acquire | src/Pipeline/SpirvShaderSampling.cpp:61-74 | a present key returns its entry and leaves the cache unchanged; a missing key runs the build once and, on success, inserts exactly that key with a fresh handle, adding one build and changing no other entry; a failed build inserts nothing |
| SpecialisationCache.AcquireAll | src/Pipeline/SpirvShaderSampling.cpp:52-74 | over any sequence of requests, existing entries never change, each new key costs exactly one build, only requested keys are added, every request gets the entry stored under its key, and requests for cached keys change nothing; the run fails only with the error of a failed build for a key not cached before, so it succeeds whenever those builds succeed |
| SpecialisationCache.AcquireRepeatedly | src/Pipeline/SpirvShaderSampling.cpp:61-74 | repeating one request returns the same entry every time, with one build if the key was new and none otherwise; it fails only when the key was new and its build failed, with that error |
| SpecialisationCache.DistinctKeysDistinctEntries | src/Pipeline/SpirvShaderSampling.cpp:59-74 | two requests with different keys, served one after the other, get entries from different builds |
| ImageSampler.SamplerRequest | src/Pipeline/SpirvShaderSampling.cpp:59-71 | the request served for a pair is keyed so that both object ids are recovered from the key, and its build is exactly the emission of the routine for that method, view and sampler |
| ImageSampler.GetImageSampler | src/Pipeline/SpirvShaderSampling.cpp:52-75 | for a cached pair the stored routine comes back unchanged; for a new pair a routine is published exactly when the view and sampler are supported; it is the emitted routine, carrying their translated state, the requested method, the view type and the coordinate count of the translated texture type |
| ImageSampler.GetImageSamplerImplicitLod | src/Pipeline/SpirvShaderSampling.cpp:42-45 | a routine built through this entry point samples with implicit LOD |
| ImageSampler.GetImageSamplerExplicitLod | src/Pipeline/SpirvShaderSampling.cpp:47-50 | a routine built through this entry point samples with explicit LOD |
| ImageSampler.GetImageSamplerKeepsSound | src/Pipeline/SpirvShaderSampling.cpp:52-101 | every published routine was emitted from a supported view and sampler carrying the ids its key packs; the returned routine is well formed and bypasses compare |
| ImageSampler.KeyIgnoresSamplingMethod | src/Pipeline/SpirvShaderSampling.cpp:58-63 | once a pair is cached through the implicit-LOD entry point, the explicit-LOD entry point gets that same implicit-LOD routine back, whatever objects now carry the two ids |
| ImageSampler.EndToEndExample | src/Pipeline/SpirvShaderSampling.cpp:52-101 | view 7 (2D, RGBA8) with sampler 3 (linear, linear mipmaps, repeat) builds a 2D linear, wrap-addressed routine on the first request and returns the same entry on the second with the build count still 1 |

## Left out

- Code generation is not modelled. The `rr::Function`, `getEntry` and the cast to an entry point (lines 66-72) become an `Entry`. Its handle is the build count, so distinct builds are told apart.
- Texture filtering is a parameter. `SamplerCore::sampleTexture` (line 148) is the `engine` function of `Invoke`, and the texture handle read at a fixed descriptor offset (line 105) is its `texture` argument. The constants argument only passes through and is omitted.
- A SIMD float is modelled as one `real`. The routine only moves these values, so lanes and float arithmetic are not modelled.
- The mutex (lines 56, 61) is not modelled. The cache is one sequential state, so at most one build per key follows from the map semantics.
- The pixel format and the component mapping are opaque values copied through (lines 84, 91-92). `isSRGBformat` is a field of the format.
- `mipLodBias == 0.0f` (line 99) is the boolean `mipLodBiasIsZero`, not float arithmetic.
- VkDebug.hpp is not part of this model. `UNIMPLEMENTED` and `ASSERT` are modelled as aborting, which rejects the input. The fallback values returned after `UNIMPLEMENTED` (lines 170, 185, 195, 200, 212, 236, 248) are therefore never produced.
- The gradients and texel offset (lines 109-111) are never written by the routine. They are left out of the engine request.
- The engine enums list only the values this code produces, except `CompareFunc`. It keeps the engine's other compare functions, so that "compare is bypassed" constrains the state. The sampling methods are the two used by the entry points, implicit and explicit LOD.
- minLod, maxLod and borderColor are not read by the code (lines 96-98). They are not fields of the modelled sampler.
- SamplingRoutine.ReadRequest: reading past the input row is undefined in the code, so the row must hold the operands the routine reads. This is a precondition, not an error path.
- ImageSampler.GetImageSamplerImplicitLod: states only the sampling method of a newly built routine. Everything else is the contract of `GetImageSampler`, which it calls.
- ImageSampler.GetImageSamplerExplicitLod: states only the sampling method of a newly built routine. Everything else is the contract of `GetImageSampler`, which it calls.
- Object identities are not invalidated when an object is destroyed. `KeyIgnoresSamplingMethod` shows that a reused id, or a different sampling method, gets the earlier routine back.

=== FILE: cache.dfy ===
/** The specialisation cache: one built value per (image view, sampler)
    identity pair, built on the first request and returned unchanged ever
    after. The cache is generic in what it stores and in how it is built;
    the sampler routines are one instance. The lock that serialises requests
    is not modelled: the cache is one sequential state, and a build runs
    inside the request that misses. */
module SpecialisationCache {
  import opened Results
  import opened Vulkan
  import opened SamplerState

  /** The 64-bit cache key. */
  datatype Key = Key(bits: bv64)

  /** The view id goes to the high half of the key, the sampler id to the low
      half. */
  function PackKey(viewId: Id, samplerId: Id): (k: Key)
    ensures ViewIdOf(k) == viewId
    ensures SamplerIdOf(k) == samplerId
  {
    Key(((viewId as bv64) << 32) | (samplerId as bv64))
  }

  function ViewIdOf(k: Key): Id {
    (k.bits >> 32) as Id
  }

  function SamplerIdOf(k: Key): Id {
    (k.bits & 0xFFFF_FFFF) as Id
  }

  /** A published value. The JIT-compiled entry point is abstracted by a
      handle that tells distinct builds apart. */
  datatype Entry<R> = Entry(handle: nat, routine: R)

  /** The entries, and the number of builds performed so far. */
  datatype Cache<R> = Cache(entries: map<Key, Entry<R>>, builds: nat)

  /** One request: its key, and the build to run should the key be missing. */
  datatype Request<R> = Request(key: Key, build: () -> Result<R, Error>)

  /** Every entry came from its own build: one build per entry, handles below
      the build count and pairwise distinct. */
  ghost predicate Valid<R>(c: Cache<R>) {
    && |c.entries| == c.builds
    && (forall k | k in c.entries :: c.entries[k].handle < c.builds)
    && (forall k1, k2 | k1 in c.entries && k2 in c.entries && k1 != k2 ::
          c.entries[k1].handle != c.entries[k2].handle)
  }

  /** `d` holds every entry of `c`, unchanged. */
  ghost predicate Extends<R>(c: Cache<R>, d: Cache<R>) {
    && c.entries.Keys <= d.entries.Keys
    && (forall k | k in c.entries :: d.entries[k] == c.entries[k])
  }

  function EmptyCache<R>(): (c: Cache<R>)
    ensures Valid(c) && c.entries == map[]
  {
    Cache(map[], 0)
  }

  /** Look the key up; on a hit return the stored entry and leave the cache
      alone, on a miss run the build once, insert its result under the key
      and return it. A failed build inserts nothing. */
  function Acquire<R>(c: Cache<R>, q: Request<R>): (r: Result<(Entry<R>, Cache<R>), Error>)
    requires Valid(c)
    ensures q.key in c.entries ==> r == Success((c.entries[q.key], c))
    ensures q.key !in c.entries ==>
      && (r.Success? <==> q.build().Success?)
      && (r.Failure? ==> r.error == q.build().error)
      && (r.Success? ==>
            && r.value.0.routine == q.build().value
            && (forall k | k in c.entries :: c.entries[k].handle != r.value.0.handle)
            && r.value.1.entries == c.entries[q.key := r.value.0]
            && r.value.1.builds == c.builds + 1)
    ensures r.Success? ==>
      && Valid(r.value.1)
      && Extends(c, r.value.1)
      && q.key in r.value.1.entries
      && r.value.1.entries[q.key] == r.value.0
  {
    if q.key in c.entries then
      Success((c.entries[q.key], c))
    else
      match q.build()
      case Failure(e) => Failure(e)
      case Success(routine) =>
        var entry := Entry(c.builds, routine);
        Success((entry, Cache(c.entries[q.key := entry], c.builds + 1)))
  }

  /** The keys of the first `n` requests. */
  function KeysUpTo<R>(requests: seq<Request<R>>, n: nat): set<Key>
    requires n <= |requests|
  {
    set j | 0 <= j < n :: requests[j].key
  }

  function RequestKeys<R>(requests: seq<Request<R>>): set<Key> {
    KeysUpTo(requests, |requests|)
  }

  /** Each of the first `n` requests got the entry stored in `c` under its
      key. */
  ghost predicate AnsweredUpTo<R>(c: Cache<R>, requests: seq<Request<R>>, n: nat, served: seq<Entry<R>>)
    requires n <= |requests|
  {
    && |served| == n
    && forall j | 0 <= j < n ::
         requests[j].key in c.entries && served[j] == c.entries[requests[j].key]
  }

  ghost predicate Answered<R>(c: Cache<R>, requests: seq<Request<R>>, served: seq<Entry<R>>) {
    AnsweredUpTo(c, requests, |requests|, served)
  }

  /** One served request, seen from a starting cache `c0`: at most the
      request's own key was added. */
  lemma {:induction false} AcquireStep<R>(c0: Cache<R>, c: Cache<R>, q: Request<R>, e: Entry<R>, d: Cache<R>)
    requires Valid(c) && Extends(c0, c)
    requires Acquire(c, q) == Success((e, d))
    ensures Valid(d) && Extends(c0, d)
    ensures d.entries.Keys - c0.entries.Keys <= (c.entries.Keys - c0.entries.Keys) + {q.key}
    ensures q.key in d.entries && d.entries[q.key] == e
  {
  }

  /** The keys added between two caches, one extending the other, number
      exactly the entries gained. */
  lemma AddedKeysCount(c: set<Key>, d: set<Key>)
    requires c <= d
    ensures |d - c| == |d| - |c|
  {
    assert d == c + (d - c);
  }

  lemma SubsetCardinality<T>(a: set<T>, b: set<T>)
    requires a <= b
    ensures |a| <= |b|
  {
    assert b == a + (b - a);
  }

  /** The loop state of `AcquireAll` after serving the first `n` requests. */
  ghost predicate ServedPrefix<R>(c: Cache<R>, final: Cache<R>, requests: seq<Request<R>>, n: nat, served: seq<Entry<R>>)
    requires n <= |requests|
  {
    && Valid(final) && Extends(c, final)
    && final.entries.Keys - c.entries.Keys <= KeysUpTo(requests, n)
    && AnsweredUpTo(final, requests, n, served)
  }

  lemma KeysUpToSnoc<R>(requests: seq<Request<R>>, i: nat)
    requires i < |requests|
    ensures KeysUpTo(requests, i + 1) == KeysUpTo(requests, i) + {requests[i].key}
  {
  }

  /** Answers recorded against `c` stay valid in a cache that extends it. */
  lemma {:induction false} AnsweredSnoc<R>(c: Cache<R>, d: Cache<R>, requests: seq<Request<R>>, i: nat,
                                          served: seq<Entry<R>>, e: Entry<R>)
    requires i < |requests| && Extends(c, d)
    requires AnsweredUpTo(c, requests, i, served)
    requires requests[i].key in d.entries && d.entries[requests[i].key] == e
    ensures AnsweredUpTo(d, requests, i + 1, served + [e])
  {
    var next := served + [e];
    forall j | 0 <= j < i + 1
      ensures requests[j].key in d.entries && next[j] == d.entries[requests[j].key]
    {
      if j < i {
        assert next[j] == served[j];
      }
    }
  }

  lemma {:induction false} ServeStep<R>(c: Cache<R>, final: Cache<R>, requests: seq<Request<R>>, i: nat,
                                        served: seq<Entry<R>>, e: Entry<R>, d: Cache<R>)
    requires i < |requests| && Valid(c)
    requires ServedPrefix(c, final, requests, i, served)
    requires Acquire(final, requests[i]) == Success((e, d))
    ensures ServedPrefix(c, d, requests, i + 1, served + [e])
  {
    AcquireStep(c, final, requests[i], e, d);
    KeysUpToSnoc(requests, i);
    AnsweredSnoc(final, d, requests, i, served, e);
  }

  lemma {:induction false} ServedCounts<R>(c: Cache<R>, final: Cache<R>, requests: seq<Request<R>>, i: nat,
                                           served: seq<Entry<R>>)
    requires i <= |requests| && Valid(c)
    requires ServedPrefix(c, final, requests, i, served)
    ensures final.builds - c.builds == |final.entries.Keys - c.entries.Keys|
    ensures final.entries.Keys - c.entries.Keys <= RequestKeys(requests)
    ensures final.builds - c.builds <= |RequestKeys(requests)|
  {
    assert KeysUpTo(requests, i) <= RequestKeys(requests);
    SubsetCardinality(final.entries.Keys - c.entries.Keys, RequestKeys(requests));
    AddedKeysCount(c.entries.Keys, final.entries.Keys);
  }

  /** With every requested key already cached, serving adds nothing and no
      build can have failed. */
  lemma {:induction false} NothingAdded<R>(c: Cache<R>, final: Cache<R>, requests: seq<Request<R>>, i: nat)
    requires Valid(c) && Valid(final) && Extends(c, final)
    requires final.entries.Keys - c.entries.Keys <= RequestKeys(requests)
    requires RequestKeys(requests) <= c.entries.Keys
    ensures final == c
    ensures i < |requests| ==> requests[i].key in c.entries
  {
    assert final.entries.Keys == c.entries.Keys;
    assert final.entries == c.entries;
    if i < |requests| {
      assert requests[i].key in RequestKeys(requests);
    }
  }

  /** When every request was answered, the keys gained are exactly the
      requested keys that were not cached before. */
  lemma {:induction false} AnsweredKeys<R>(c: Cache<R>, final: Cache<R>, requests: seq<Request<R>>, served: seq<Entry<R>>)
    requires Extends(c, final)
    requires final.entries.Keys - c.entries.Keys <= RequestKeys(requests)
    requires Answered(final, requests, served)
    ensures final.entries.Keys == c.entries.Keys + RequestKeys(requests)
  {
    assert RequestKeys(requests) <= final.entries.Keys by {
      forall k | k in RequestKeys(requests) ensures k in final.entries.Keys {
        var j :| 0 <= j < |requests| && requests[j].key == k;
      }
    }
  }

  /** Some request for a key missing from `c` has a build that fails with
      error `e`. */
  ghost predicate FailedBuild<R>(c: Cache<R>, requests: seq<Request<R>>, e: Error) {
    exists i | 0 <= i < |requests| :: requests[i].key !in c.entries && requests[i].build() == Failure(e)
  }

  /** Serves a sequence of requests in order, stopping at the first whose
      build fails. Existing entries never change, each new key costs exactly
      one build, only requested keys are added, and every request is
      answered with the entry stored under its key. The run fails only with
      the error of a build that failed for a key not cached before, so it
      succeeds whenever every such build does. */
  method AcquireAll<R>(c: Cache<R>, requests: seq<Request<R>>) returns (r: Result<seq<Entry<R>>, Error>, final: Cache<R>)
    requires Valid(c)
    ensures r.Failure? ==> FailedBuild(c, requests, r.error)
    ensures Valid(final) && Extends(c, final)
    ensures final.builds - c.builds == |final.entries.Keys - c.entries.Keys|
    ensures final.entries.Keys - c.entries.Keys <= RequestKeys(requests)
    ensures final.builds - c.builds <= |RequestKeys(requests)|
    ensures r.Success? ==> Answered(final, requests, r.value)
    ensures r.Success? ==> final.entries.Keys == c.entries.Keys + RequestKeys(requests)
    ensures RequestKeys(requests) <= c.entries.Keys ==> r.Success? && final == c
  {
    final := c;
    var served: seq<Entry<R>> := [];
    var failure: Option<Error> := None;
    var i := 0;
    while i < |requests| && failure == None
      invariant 0 <= i <= |requests|
      invariant ServedPrefix(c, final, requests, i, served)
      invariant failure != None ==> i < |requests| && requests[i].key !in c.entries
      invariant failure != None ==> requests[i].build() == Failure(failure.value)
      decreases |requests| - i, failure == None
    {
      var answer := Acquire(final, requests[i]);
      if answer.Failure? {
        failure := Some(answer.error);
      } else {
        ServeStep(c, final, requests, i, served, answer.value.0, answer.value.1);
        final := answer.value.1;
        served := served + [answer.value.0];
        i := i + 1;
      }
    }
    ServedCounts(c, final, requests, i, served);
    if RequestKeys(requests) <= c.entries.Keys {
      NothingAdded(c, final, requests, i);
    }
    if failure.Some? {
      r := Failure(failure.value);
    } else {
      AnsweredKeys(c, final, requests, served);
      r := Success(served);
    }
  }

  /** Issuing the same request `n` times: every request is answered with the
      same entry, built once if the key was new and not at all otherwise.
      It fails only when the key was new and its build failed, with that
      build's error. */
  method AcquireRepeatedly<R>(c: Cache<R>, q: Request<R>, n: nat) returns (r: Result<seq<Entry<R>>, Error>, final: Cache<R>)
    requires Valid(c) && n > 0
    ensures Valid(final) && Extends(c, final)
    ensures r.Success? ==> |r.value| == n && forall i | 0 <= i < n :: r.value[i] == r.value[0]
    ensures r.Success? ==> final.builds == c.builds + (if q.key in c.entries then 0 else 1)
    ensures q.key in c.entries ==> r.Success? && final == c && r.value[0] == c.entries[q.key]
    ensures r.Failure? ==> q.key !in c.entries && q.build() == Failure(r.error)
  {
    var requests := seq(n, _ => q);
    RepeatedRequestKeys(q, n);
    r, final := AcquireAll(c, requests);
    OneKeyBuilds(c.entries.Keys, final.entries.Keys, q.key, r.Success?);
    if r.Failure? {
      var i :| 0 <= i < |requests| && requests[i].key !in c.entries && requests[i].build() == Failure(r.error);
      assert requests[i] == q;
    }
    if r.Success? {
      forall i | 0 <= i < n
        ensures r.value[i] == r.value[0]
      {
        assert requests[i] == requests[0];
      }
    }
  }

  lemma RepeatedRequestKeys<R>(q: Request<R>, n: nat)
    requires n > 0
    ensures RequestKeys(seq(n, _ => q)) == {q.key}
  {
    assert seq(n, _ => q)[0] == q;
  }

  /** When at most one key `k` can be added, the added keys are exactly `k`
      if it was missing and ends up present, and none otherwise. */
  lemma OneKeyBuilds(before: set<Key>, after: set<Key>, k: Key, present: bool)
    requires before <= after && after - before <= {k}
    requires present ==> k in after
    ensures k in before ==> |after - before| == 0
    ensures k !in before && present ==> |after - before| == 1
  {
    if k in before {
      assert after - before == {};
    } else if present {
      assert after - before == {k};
    }
  }

  /** Requests for two different keys, served one after the other, get
      entries from different builds. */
  lemma {:induction false} DistinctKeysDistinctEntries<R>(c: Cache<R>, q1: Request<R>, q2: Request<R>,
                                                         e1: Entry<R>, c1: Cache<R>, e2: Entry<R>, c2: Cache<R>)
    requires Valid(c) && q1.key != q2.key
    requires Acquire(c, q1) == Success((e1, c1))
    requires Acquire(c1, q2) == Success((e2, c2))
    ensures e1.handle != e2.handle
  {
    assert q1.key in c1.entries && c1.entries[q1.key] == e1;
    if q2.key in c1.entries {
      assert e2 == c1.entries[q2.key];
    }
  }
}

=== FILE: image_sampler.dfy ===
/** The driver's entry points: the specialisation cache instantiated with
    sampling routines, keyed by the image view and sampler identities. */
module ImageSampler {
  import opened Results
  import opened Vulkan
  import opened SamplerState
  import opened Translator
  import opened SamplingRoutine
  import opened SpecialisationCache

  /** The request `GetImageSampler` serves for one sampling method and one
      pair of objects: keyed by the two identities only, built by emitting
      the routine. */
  function SamplerRequest(samplerMethod: SamplerMethod, view: ImageView, sampler: Sampler): (q: Request<Routine>)
    ensures ViewIdOf(q.key) == view.id && SamplerIdOf(q.key) == sampler.id
    ensures q.build() == EmitSampler(samplerMethod, view, sampler)
  {
    Request(PackKey(view.id, sampler.id), () => EmitSampler(samplerMethod, view, sampler))
  }

  /** Every published routine was emitted, for some sampling method, from an
      image view and a sampler carrying the identities its key packs. */
  ghost predicate Sound(c: Cache<Routine>) {
    forall k | k in c.entries ::
      exists m: SamplerMethod, view: ImageView, sampler: Sampler ::
        && view.id == ViewIdOf(k)
        && sampler.id == SamplerIdOf(k)
        && EmitSampler(m, view, sampler) == Success(c.entries[k].routine)
  }

  /** Returns the routine cached for the pair, building it for this sampling
      method on a miss. */
  function GetImageSampler(c: Cache<Routine>, samplerMethod: SamplerMethod, view: ImageView, sampler: Sampler)
    : (r: Result<(Entry<Routine>, Cache<Routine>), Error>)
    requires Valid(c)
    ensures var key := PackKey(view.id, sampler.id);
      && (key in c.entries ==> r == Success((c.entries[key], c)))
      && (key !in c.entries ==>
            && (r.Success? <==> ConfigurationSupported(view, sampler) && FeaturesOff(sampler))
            && (r.Failure? ==> r.error == Translate(view, sampler).error)
            && (r.Success? ==>
                  && r.value.0.routine.state == Translate(view, sampler).value
                  && r.value.0.routine.samplerMethod == samplerMethod
                  && r.value.0.routine.viewType == view.viewType
                  && r.value.0.routine.coordinateCount == Dimensions(r.value.0.routine.state.textureType)
                  && r.value.0.routine == EmitSampler(samplerMethod, view, sampler).value
                  && r.value.1.entries == c.entries[key := r.value.0]
                  && r.value.1.builds == c.builds + 1))
    ensures r.Success? ==> Valid(r.value.1) && Extends(c, r.value.1)
  {
    Acquire(c, SamplerRequest(samplerMethod, view, sampler))
  }

  function GetImageSamplerImplicitLod(c: Cache<Routine>, view: ImageView, sampler: Sampler)
    : (r: Result<(Entry<Routine>, Cache<Routine>), Error>)
    requires Valid(c)
    ensures PackKey(view.id, sampler.id) !in c.entries && r.Success? ==>
      r.value.0.routine.samplerMethod == Implicit
  {
    GetImageSampler(c, Implicit, view, sampler)
  }

  function GetImageSamplerExplicitLod(c: Cache<Routine>, view: ImageView, sampler: Sampler)
    : (r: Result<(Entry<Routine>, Cache<Routine>), Error>)
    requires Valid(c)
    ensures PackKey(view.id, sampler.id) !in c.entries && r.Success? ==>
      r.value.0.routine.samplerMethod == Lod
  {
    GetImageSampler(c, Lod, view, sampler)
  }

  /** Serving a request keeps every published routine traceable to objects
      with the key's identities; in particular every cached routine is well
      formed and has a translated state. */
  lemma {:induction false} GetImageSamplerKeepsSound(c: Cache<Routine>, samplerMethod: SamplerMethod,
                                                     view: ImageView, sampler: Sampler,
                                                     e: Entry<Routine>, d: Cache<Routine>)
    requires Valid(c) && Sound(c)
    requires GetImageSampler(c, samplerMethod, view, sampler) == Success((e, d))
    ensures Sound(d)
    ensures WellFormed(e.routine) && e.routine.state.compare == CompareBypass
  {
    var key := PackKey(view.id, sampler.id);
    if key in c.entries {
      assert d == c;
      var m: SamplerMethod, v: ImageView, s: Sampler :| v.id == ViewIdOf(key) && s.id == SamplerIdOf(key)
        && EmitSampler(m, v, s) == Success(c.entries[key].routine);
    } else {
      forall k | k in d.entries
        ensures exists m: SamplerMethod, v: ImageView, s: Sampler ::
          && v.id == ViewIdOf(k) && s.id == SamplerIdOf(k)
          && EmitSampler(m, v, s) == Success(d.entries[k].routine)
      {
        if k == key {
          assert EmitSampler(samplerMethod, view, sampler) == Success(d.entries[k].routine);
        } else {
          assert d.entries[k] == c.entries[k];
        }
      }
    }
  }

  /** The key ignores the sampling method: once a pair is cached through one
      entry point, the other entry point receives that same routine, built
      for the first method, whatever objects now carry the two identities. */
  lemma {:induction false} KeyIgnoresSamplingMethod(c: Cache<Routine>, view: ImageView, sampler: Sampler,
                                                    e: Entry<Routine>, d: Cache<Routine>,
                                                    view2: ImageView, sampler2: Sampler)
    requires Valid(c)
    requires GetImageSamplerImplicitLod(c, view, sampler) == Success((e, d))
    requires PackKey(view.id, sampler.id) !in c.entries
    requires view2.id == view.id && sampler2.id == sampler.id
    ensures GetImageSamplerExplicitLod(d, view2, sampler2) == Success((e, d))
    ensures e.routine.samplerMethod == Implicit
  {
    assert PackKey(view2.id, sampler2.id) == PackKey(view.id, sampler.id);
  }

  /** The example pair: a 2D RGBA8 view with id 7 and a linear, repeating
      sampler with id 3. The first request builds a 2D routine with linear
      filtering, wrap addressing and linear mipmaps; the second returns the
      same entry with no further build. */
  lemma EndToEndExample()
    ensures var swizzle := ComponentMapping(SwizzleIdentity, SwizzleIdentity, SwizzleIdentity, SwizzleIdentity);
      var view := ImageView(7, View2D, Format(37, false), swizzle);
      var sampler := Sampler(3, Linear, Linear, MipmapLinear, Repeat, Repeat, Repeat, false, true, false, false);
      var first := GetImageSamplerImplicitLod(EmptyCache(), view, sampler);
      && first.Success?
      && first.value.0.routine == Routine(
           State(Texture2D, Format(37, false), FilterLinear,
                 AddressingWrap, AddressingWrap, AddressingWrap,
                 MipmapLinearType, false, swizzle, false, CompareBypass),
           Implicit, View2D, 2)
      && first.value.1.builds == 1
      && GetImageSamplerImplicitLod(first.value.1, view, sampler) == Success((first.value.0, first.value.1))
  {
    var swizzle := ComponentMapping(SwizzleIdentity, SwizzleIdentity, SwizzleIdentity, SwizzleIdentity);
    var view := ImageView(7, View2D, Format(37, false), swizzle);
    var sampler := Sampler(3, Linear, Linear, MipmapLinear, Repeat, Repeat, Repeat, false, true, false, false);
    var c0: Cache<Routine> := EmptyCache();
    assert PackKey(7, 3) !in c0.entries;
  }
}

=== FILE: results.dfy ===
/** A success/failure wrapper. The driver aborts on an unsupported sampler
    configuration; the model turns every such abort into a `Failure`, so a
    rejected input never yields a value. */
module Results {

  datatype Option<+T> = None | Some(value: T)

  datatype Result<+T, +E> = Success(value: T) | Failure(error: E) {

    predicate IsFailure() {
      Failure?
    }

    function PropagateFailure<U>(): Result<U, E>
      requires Failure?
    {
      Failure(error)
    }

    function Extract(): T
      requires Success?
    {
      value
    }
  }
}

=== FILE: routine.dfy ===
/** The specialised sampling routine: which input operands it reads, what it
    hands to the texture sampling engine, and how the four returned channels
    reach the output. The engine itself is a parameter. */
module SamplingRoutine {
  import opened Results
  import opened Vulkan
  import opened SamplerState
  import opened Translator

  /** The two entry points: implicit LOD and explicit LOD. */
  datatype SamplerMethod = Implicit | Lod

  /** One SIMD float operand. The routine only moves these values around, so
      their lanes and float semantics are not modelled. */
  type Lane = real

  /** What the routine passes to the engine besides the texture and state:
      the three coordinate slots (None for a slot the routine never writes),
      the projective coordinate, the bias or LOD, and the sampling method.
      Gradients and texel offset are never written and are left out. */
  datatype SampleRequest = SampleRequest(
    u: Option<Lane>,
    v: Option<Lane>,
    w: Option<Lane>,
    q: Lane,
    bias: Lane,
    samplerMethod: SamplerMethod)

  datatype Color = Color(r: Lane, g: Lane, b: Lane, a: Lane)

  /** A built routine: the constants the specialisation bakes into the code. */
  datatype Routine = Routine(
    state: State,
    samplerMethod: SamplerMethod,
    viewType: ImageViewType,
    coordinateCount: nat)

  /** Number of coordinates a texture type is addressed with; a cube is
      addressed by a three-component direction. */
  function Dimensions(t: TextureType): nat {
    match t
    case Texture1D => 1
    case Texture2D => 2
    case TextureCube => 3
  }

  /** The routine's own switch on the view type. It accepts exactly the view
      types the translation accepts and agrees with the texture type that
      translation produced, so its unimplemented arm is never reached after
      a successful translation. */
  function CoordinateCount(v: ImageViewType): (r: Result<nat, Error>)
    ensures r.Success? <==> ConvertTextureType(v).Success?
    ensures r.Success? ==> r.value == Dimensions(ConvertTextureType(v).value)
    ensures r.Failure? ==> r.error == UnsupportedConfiguration(ViewTypeUnsupported(v))
  {
    match v
    case View1D => Success(1)
    case View2D => Success(2)
    case ViewCube => Success(3)
    case _ => Failure(UnsupportedConfiguration(ViewTypeUnsupported(v)))
  }

  /** Number of input operands a routine reads: the coordinates, then the
      LOD when the method is explicit LOD. */
  function OperandCount(r: Routine): nat {
    if r.samplerMethod == Lod then r.coordinateCount + 1 else r.coordinateCount
  }

  predicate WellFormed(r: Routine) {
    1 <= r.coordinateCount <= 3
  }

  /** Coordinate slot `i` after the copy loop and the 1D override. */
  function Slot(r: Routine, inp: seq<Lane>, i: nat): Option<Lane>
    requires i < 3 && |inp| >= OperandCount(r)
  {
    if i == 1 && (r.viewType == View1D || r.viewType == View1DArray) then Some(0.0)
    else if i < r.coordinateCount then Some(inp[i])
    else None
  }

  /** The operands the routine hands to the engine for a given input row. */
  function ReadRequest(r: Routine, inp: seq<Lane>): (req: SampleRequest)
    requires WellFormed(r) && |inp| >= OperandCount(r)
    ensures req.u == Some(inp[0])
    ensures r.viewType == View1D || r.viewType == View1DArray ==> req.v == Some(0.0)
    ensures r.viewType != View1D && r.viewType != View1DArray ==>
      req.v == (if r.coordinateCount >= 2 then Some(inp[1]) else None)
    ensures req.w == (if r.coordinateCount == 3 then Some(inp[2]) else None)
    ensures req.q == 0.0
    ensures req.bias == (if r.samplerMethod == Lod then inp[r.coordinateCount] else 0.0)
    ensures req.samplerMethod == r.samplerMethod
  {
    SampleRequest(
      u := Slot(r, inp, 0),
      v := Slot(r, inp, 1),
      w := Slot(r, inp, 2),
      q := 0.0,
      bias := if r.samplerMethod == Lod then inp[r.coordinateCount] else 0.0,
      samplerMethod := r.samplerMethod)
  }

  /** Running a routine: sample through the engine, then write the four
      channels to the output in the order R, G, B, A. */
  function Invoke<Texture>(r: Routine, texture: Texture, inp: seq<Lane>,
                           engine: (State, Texture, SampleRequest) -> Color): (out: seq<Lane>)
    requires WellFormed(r) && |inp| >= OperandCount(r)
    ensures |out| == 4
    ensures var c := engine(r.state, texture, ReadRequest(r, inp));
      out[0] == c.r && out[1] == c.g && out[2] == c.b && out[3] == c.a
  {
    var c := engine(r.state, texture, ReadRequest(r, inp));
    [c.r, c.g, c.b, c.a]
  }

  /** Builds the routine for a sampling method, an image view and a sampler:
      the sampler state, then the coordinate count. */
  function EmitSampler(samplerMethod: SamplerMethod, view: ImageView, sampler: Sampler): (r: Result<Routine, Error>)
    ensures r.Success? <==> Translate(view, sampler).Success?
    ensures r.Failure? ==> r.error == Translate(view, sampler).error
    ensures r.Success? ==>
      && WellFormed(r.value)
      && r.value.state == Translate(view, sampler).value
      && r.value.samplerMethod == samplerMethod
      && r.value.viewType == view.viewType
      && r.value.coordinateCount == Dimensions(r.value.state.textureType)
  {
    var state :- Translate(view, sampler);
    match CoordinateCount(view.viewType)
    case Success(count) => Success(Routine(state, samplerMethod, view.viewType, count))
    case Failure(e) => Failure(e)
  }

  // Properties of the routine.

  /** The routine reads nothing beyond its declared operands: two input rows
      that agree on the first `OperandCount` entries give the same request.
      In particular an implicit-LOD routine never reads the operand after its
      coordinates. */
  lemma {:induction false} ReadsOnlyDeclaredOperands(r: Routine, a: seq<Lane>, b: seq<Lane>)
    requires WellFormed(r) && |a| >= OperandCount(r) && |b| >= OperandCount(r)
    requires a[..OperandCount(r)] == b[..OperandCount(r)]
    ensures ReadRequest(r, a) == ReadRequest(r, b)
  {
    var n := OperandCount(r);
    forall i | 0 <= i < n
      ensures a[i] == b[i]
    {
      assert a[i] == a[..n][i];
    }
  }

  /** A 1D routine is a 2D routine whose second coordinate is zero: given a
      coordinate `x` and whatever follows, it hands the engine exactly what
      a two-coordinate routine with the same state hands it for `x, 0`.
      That routine keeps the 1D texture type in its state, so it is a
      hypothetical one that `EmitSampler` never builds; a routine for a real
      2D view carries a 2D texture type, which the engine may treat
      differently. */
  lemma OneDimensionalIsDegenerate2D(r: Routine, x: Lane, rest: seq<Lane>)
    requires r.viewType == View1D && r.coordinateCount == 1
    requires |[x] + rest| >= OperandCount(r)
    ensures var r2 := r.(viewType := View2D, coordinateCount := 2);
      && |[x, 0.0] + rest| >= OperandCount(r2)
      && ReadRequest(r, [x] + rest) == ReadRequest(r2, [x, 0.0] + rest)
  {
  }

  /** The same holds for the channels written by a full invocation, against
      the same hypothetical same-state two-coordinate routine. */
  lemma OneDimensionalInvokeIsDegenerate2D<Texture>(r: Routine, texture: Texture, x: Lane, rest: seq<Lane>,
                                                    engine: (State, Texture, SampleRequest) -> Color)
    requires r.viewType == View1D && r.coordinateCount == 1
    requires |[x] + rest| >= OperandCount(r)
    ensures var r2 := r.(viewType := View2D, coordinateCount := 2);
      && |[x, 0.0] + rest| >= OperandCount(r2)
      && Invoke(r, texture, [x] + rest, engine) == Invoke(r2, texture, [x, 0.0] + rest, engine)
  {
    OneDimensionalIsDegenerate2D(r, x, rest);
  }
}

=== FILE: sampler_state.dfy ===
/** The sampler state consumed by the texture sampling engine, and the
    closed set of reasons for which the driver refuses to build one. */
module SamplerState {
  import opened Vulkan

  /** The texture types the translation can produce. */
  datatype TextureType = Texture1D | Texture2D | TextureCube

  /** Combined magnification/minification filter. */
  datatype FilterType = FilterPoint | FilterMinLinearMagPoint | FilterMinPointMagLinear | FilterLinear

  datatype MipmapType = MipmapPoint | MipmapLinearType

  datatype AddressingMode =
    | AddressingWrap | AddressingClamp | AddressingMirror | AddressingMirrorOnce
    | AddressingBorder | AddressingSeamless

  /** Depth-compare functions of the engine; the translation only ever
      produces the bypass. */
  datatype CompareFunc =
    | CompareBypass | CompareLessEqual | CompareGreaterEqual | CompareLess
    | CompareGreater | CompareEqual | CompareNotEqual | CompareAlways | CompareNever

  datatype State = State(
    textureType: TextureType,
    textureFormat: Format,
    textureFilter: FilterType,
    addressingModeU: AddressingMode,
    addressingModeV: AddressingMode,
    addressingModeW: AddressingMode,
    mipmapFilter: MipmapType,
    sRGB: bool,
    swizzle: ComponentMapping,
    highPrecisionFiltering: bool,
    compare: CompareFunc)

  /** The field and value that an unimplemented switch arm rejects. */
  datatype Unsupported =
    | ViewTypeUnsupported(viewType: ImageViewType)
    | MagFilterUnsupported(magFilter: Filter)
    | MinFilterUnsupported(minFilter: Filter)
    | MipmapModeUnsupported(mipmapMode: MipmapMode)
    | AddressModeUnsupported(addressMode: AddressMode)

  /** A sampler feature that is asserted to be off. */
  datatype Feature = CompareEnable | MipLodBias | AnisotropyEnable | UnnormalizedCoordinates

  datatype Error =
    | UnsupportedConfiguration(what: Unsupported)
    | PreconditionViolated(feature: Feature)
}

=== FILE: translator.dfy ===
/** Translation of Vulkan image-view and sampler state into the sampler
    state of the texture sampling engine. Every switch arm the driver marks
    unimplemented, and every feature it asserts to be off, is a `Failure`. */
module Translator {
  import opened Results
  import opened Vulkan
  import opened SamplerState

  // Inverse readings of the engine enums, taken from what each name says.

  /** The image view type a texture type samples. */
  function ViewTypeOf(t: TextureType): ImageViewType {
    match t
    case Texture1D => View1D
    case Texture2D => View2D
    case TextureCube => ViewCube
  }

  /** The magnification filter a combined filter type names. */
  function MagFilterOf(f: FilterType): Filter {
    match f
    case FilterPoint => Nearest
    case FilterMinLinearMagPoint => Nearest
    case FilterMinPointMagLinear => Linear
    case FilterLinear => Linear
  }

  /** The minification filter a combined filter type names. */
  function MinFilterOf(f: FilterType): Filter {
    match f
    case FilterPoint => Nearest
    case FilterMinLinearMagPoint => Linear
    case FilterMinPointMagLinear => Nearest
    case FilterLinear => Linear
  }

  function MipmapModeOf(m: MipmapType): MipmapMode {
    match m
    case MipmapPoint => MipmapNearest
    case MipmapLinearType => MipmapLinear
  }

  /** The sampler address mode a non-seamless addressing mode stands for. */
  function AddressModeOf(a: AddressingMode): AddressMode
    requires a != AddressingSeamless
  {
    match a
    case AddressingWrap => Repeat
    case AddressingMirror => MirroredRepeat
    case AddressingClamp => ClampToEdge
    case AddressingBorder => ClampToBorder
    case AddressingMirrorOnce => MirrorClampToEdge
  }

  predicate IsNamedFilter(f: Filter) {
    f == Nearest || f == Linear
  }

  predicate IsImplementedViewType(v: ImageViewType) {
    v == View1D || v == View2D || v == ViewCube
  }

  function ConvertTextureType(v: ImageViewType): (r: Result<TextureType, Error>)
    ensures r.Success? <==> IsImplementedViewType(v)
    ensures r.Success? ==> ViewTypeOf(r.value) == v
    ensures r.Failure? ==> r.error == UnsupportedConfiguration(ViewTypeUnsupported(v))
  {
    match v
    case View1D => Success(Texture1D)
    case View2D => Success(Texture2D)
    case ViewCube => Success(TextureCube)
    case _ => Failure(UnsupportedConfiguration(ViewTypeUnsupported(v)))
  }

  /** The magnification filter is examined first: an unnamed one is reported
      whatever the minification filter is. */
  function ConvertFilterMode(mag: Filter, min: Filter): (r: Result<FilterType, Error>)
    ensures r.Success? <==> IsNamedFilter(mag) && IsNamedFilter(min)
    ensures r.Success? ==> MagFilterOf(r.value) == mag && MinFilterOf(r.value) == min
    ensures !IsNamedFilter(mag) ==> r.error == UnsupportedConfiguration(MagFilterUnsupported(mag))
    ensures IsNamedFilter(mag) && !IsNamedFilter(min) ==> r.error == UnsupportedConfiguration(MinFilterUnsupported(min))
  {
    match mag
    case Nearest =>
      (match min
       case Nearest => Success(FilterPoint)
       case Linear => Success(FilterMinLinearMagPoint)
       case _ => Failure(UnsupportedConfiguration(MinFilterUnsupported(min))))
    case Linear =>
      (match min
       case Nearest => Success(FilterMinPointMagLinear)
       case Linear => Success(FilterLinear)
       case _ => Failure(UnsupportedConfiguration(MinFilterUnsupported(min))))
    case _ => Failure(UnsupportedConfiguration(MagFilterUnsupported(mag)))
  }

  function ConvertMipmapMode(m: MipmapMode): (r: Result<MipmapType, Error>)
    ensures r.Success? <==> !m.OtherMipmapMode?
    ensures r.Success? ==> MipmapModeOf(r.value) == m
    ensures r.Failure? ==> r.error == UnsupportedConfiguration(MipmapModeUnsupported(m))
  {
    match m
    case MipmapNearest => Success(MipmapPoint)
    case MipmapLinear => Success(MipmapLinearType)
    case OtherMipmapMode(_) => Failure(UnsupportedConfiguration(MipmapModeUnsupported(m)))
  }

  /** Cube images ignore the sampler's wrap modes (Vulkan 1.1, chapter Image
      Operations, "Wrapping Operation" and "Cube Map Edge Handling"): they
      always sample seamlessly across faces. The view type is examined
      before the address mode. */
  function ConvertAddressingMode(mode: AddressMode, v: ImageViewType): (r: Result<AddressingMode, Error>)
    ensures IsCube(v) ==> r == Success(AddressingSeamless)
    ensures !IsCube(v) && v != View1D && v != View2D ==> r == Failure(UnsupportedConfiguration(ViewTypeUnsupported(v)))
    ensures v == View1D || v == View2D ==>
      && (r.Success? <==> !mode.OtherAddressMode?)
      && (r.Success? ==> r.value != AddressingSeamless && AddressModeOf(r.value) == mode)
      && (r.Failure? ==> r.error == UnsupportedConfiguration(AddressModeUnsupported(mode)))
  {
    match v
    case ViewCube => Success(AddressingSeamless)
    case ViewCubeArray => Success(AddressingSeamless)
    case View1D => ConvertWrapMode(mode)
    case View2D => ConvertWrapMode(mode)
    case _ => Failure(UnsupportedConfiguration(ViewTypeUnsupported(v)))
  }

  function ConvertWrapMode(mode: AddressMode): Result<AddressingMode, Error> {
    match mode
    case Repeat => Success(AddressingWrap)
    case MirroredRepeat => Success(AddressingMirror)
    case ClampToEdge => Success(AddressingClamp)
    case ClampToBorder => Success(AddressingBorder)
    case MirrorClampToEdge => Success(AddressingMirrorOnce)
    case OtherAddressMode(_) => Failure(UnsupportedConfiguration(AddressModeUnsupported(mode)))
  }

  // Reference definition of the supported subset, stated field by field.

  /** The view type and both filters have implemented values. */
  predicate ViewAndFiltersSupported(view: ImageView, sampler: Sampler) {
    && IsImplementedViewType(view.viewType)
    && IsNamedFilter(sampler.magFilter)
    && IsNamedFilter(sampler.minFilter)
  }

  /** Every enum field the translation reads has an implemented value. A cube
      view accepts any address mode, since it ignores them. */
  predicate ConfigurationSupported(view: ImageView, sampler: Sampler) {
    && ViewAndFiltersSupported(view, sampler)
    && AddressingSupported(view, sampler)
    && !sampler.mipmapMode.OtherMipmapMode?
  }

  /** The three address modes have implemented values, or the view is a cube,
      which ignores them. */
  predicate AddressingSupported(view: ImageView, sampler: Sampler) {
    || view.viewType == ViewCube
    || (&& !sampler.addressModeU.OtherAddressMode?
        && !sampler.addressModeV.OtherAddressMode?
        && !sampler.addressModeW.OtherAddressMode?)
  }

  /** The sampler features this translation asserts to be off. */
  predicate FeaturesOff(sampler: Sampler) {
    && !sampler.compareEnable
    && sampler.mipLodBiasIsZero
    && !sampler.anisotropyEnable
    && !sampler.unnormalizedCoordinates
  }

  /** The sampler state built at the start of the sampling routine. The enum
      conversions run first, in field order, then the asserted features are
      checked in the order compare, LOD bias, anisotropy, unnormalised
      coordinates; the first check that fails decides the error. */
  function Translate(view: ImageView, sampler: Sampler): (r: Result<State, Error>)
    ensures r.Success? <==> ConfigurationSupported(view, sampler) && FeaturesOff(sampler)
    ensures r.Success? ==>
      && ViewTypeOf(r.value.textureType) == view.viewType
      && r.value.textureFormat == view.format
      && MagFilterOf(r.value.textureFilter) == sampler.magFilter
      && MinFilterOf(r.value.textureFilter) == sampler.minFilter
      && MipmapModeOf(r.value.mipmapFilter) == sampler.mipmapMode
      && r.value.sRGB == view.format.isSrgb
      && r.value.swizzle == view.components
      && !r.value.highPrecisionFiltering
      && r.value.compare == CompareBypass
    ensures r.Success? && view.viewType == ViewCube ==>
      r.value.addressingModeU == r.value.addressingModeV == r.value.addressingModeW == AddressingSeamless
    ensures r.Success? && view.viewType != ViewCube ==>
      && r.value.addressingModeU != AddressingSeamless && AddressModeOf(r.value.addressingModeU) == sampler.addressModeU
      && r.value.addressingModeV != AddressingSeamless && AddressModeOf(r.value.addressingModeV) == sampler.addressModeV
      && r.value.addressingModeW != AddressingSeamless && AddressModeOf(r.value.addressingModeW) == sampler.addressModeW
    ensures r.Success? ==> Producible(r.value)
    ensures r.Failure? && r.error.PreconditionViolated? ==> ConfigurationSupported(view, sampler)
    // Which error is reported: the first failing check, in source order.
    ensures !IsImplementedViewType(view.viewType) ==>
      r == Failure(UnsupportedConfiguration(ViewTypeUnsupported(view.viewType)))
    ensures IsImplementedViewType(view.viewType) && !IsNamedFilter(sampler.magFilter) ==>
      r == Failure(UnsupportedConfiguration(MagFilterUnsupported(sampler.magFilter)))
    ensures IsImplementedViewType(view.viewType) && IsNamedFilter(sampler.magFilter) && !IsNamedFilter(sampler.minFilter) ==>
      r == Failure(UnsupportedConfiguration(MinFilterUnsupported(sampler.minFilter)))
    ensures ViewAndFiltersSupported(view, sampler) && view.viewType != ViewCube ==>
      && (sampler.addressModeU.OtherAddressMode? ==>
            r == Failure(UnsupportedConfiguration(AddressModeUnsupported(sampler.addressModeU))))
      && (!sampler.addressModeU.OtherAddressMode? && sampler.addressModeV.OtherAddressMode? ==>
            r == Failure(UnsupportedConfiguration(AddressModeUnsupported(sampler.addressModeV))))
      && (!sampler.addressModeU.OtherAddressMode? && !sampler.addressModeV.OtherAddressMode? &&
          sampler.addressModeW.OtherAddressMode? ==>
            r == Failure(UnsupportedConfiguration(AddressModeUnsupported(sampler.addressModeW))))
    ensures ViewAndFiltersSupported(view, sampler) && AddressingSupported(view, sampler) &&
            sampler.mipmapMode.OtherMipmapMode? ==>
      r == Failure(UnsupportedConfiguration(MipmapModeUnsupported(sampler.mipmapMode)))
    ensures ConfigurationSupported(view, sampler) && sampler.compareEnable ==>
      r == Failure(PreconditionViolated(CompareEnable))
    ensures ConfigurationSupported(view, sampler) && !sampler.compareEnable && !sampler.mipLodBiasIsZero ==>
      r == Failure(PreconditionViolated(MipLodBias))
    ensures ConfigurationSupported(view, sampler) && !sampler.compareEnable && sampler.mipLodBiasIsZero &&
            sampler.anisotropyEnable ==>
      r == Failure(PreconditionViolated(AnisotropyEnable))
    ensures ConfigurationSupported(view, sampler) && !sampler.compareEnable && sampler.mipLodBiasIsZero &&
            !sampler.anisotropyEnable && sampler.unnormalizedCoordinates ==>
      r == Failure(PreconditionViolated(UnnormalizedCoordinates))
  {
    var textureType :- ConvertTextureType(view.viewType);
    var filter :- ConvertFilterMode(sampler.magFilter, sampler.minFilter);
    var addressU :- ConvertAddressingMode(sampler.addressModeU, view.viewType);
    var addressV :- ConvertAddressingMode(sampler.addressModeV, view.viewType);
    var addressW :- ConvertAddressingMode(sampler.addressModeW, view.viewType);
    var mipmap :- ConvertMipmapMode(sampler.mipmapMode);
    if sampler.compareEnable then Failure(PreconditionViolated(CompareEnable))
    else if !sampler.mipLodBiasIsZero then Failure(PreconditionViolated(MipLodBias))
    else if sampler.anisotropyEnable then Failure(PreconditionViolated(AnisotropyEnable))
    else if sampler.unnormalizedCoordinates then Failure(PreconditionViolated(UnnormalizedCoordinates))
    else
      Success(State(
        textureType := textureType,
        textureFormat := view.format,
        textureFilter := filter,
        addressingModeU := addressU,
        addressingModeV := addressV,
        addressingModeW := addressW,
        mipmapFilter := mipmap,
        sRGB := view.format.isSrgb,
        swizzle := view.components,
        highPrecisionFiltering := false,
        compare := CompareBypass))
  }

  /** The engine states a translation can yield: compare bypassed, plain
      precision, the sRGB flag read off the format, and seamless addressing
      on all three axes exactly for cube textures. */
  predicate Producible(st: State) {
    && st.compare == CompareBypass
    && !st.highPrecisionFiltering
    && st.sRGB == st.textureFormat.isSrgb
    && (st.addressingModeU == AddressingSeamless <==> st.textureType == TextureCube)
    && (st.addressingModeV == AddressingSeamless <==> st.textureType == TextureCube)
    && (st.addressingModeW == AddressingSeamless <==> st.textureType == TextureCube)
  }

  /** An address mode that translates to `a` (any mode, for seamless). */
  function AddressModeFor(a: AddressingMode): AddressMode {
    if a == AddressingSeamless then Repeat else AddressModeOf(a)
  }

  /** An image view that yields the view-side fields of `st`. */
  function ViewFor(st: State, id: Id): ImageView {
    ImageView(id, ViewTypeOf(st.textureType), st.textureFormat, st.swizzle)
  }

  /** A sampler that yields the sampler-side fields of `st`. */
  function SamplerFor(st: State, id: Id): Sampler {
    Sampler(id, MagFilterOf(st.textureFilter), MinFilterOf(st.textureFilter), MipmapModeOf(st.mipmapFilter),
            AddressModeFor(st.addressingModeU), AddressModeFor(st.addressingModeV), AddressModeFor(st.addressingModeW),
            false, true, false, false)
  }

  /** Every producible state is the translation of some view and sampler;
      with the postcondition of `Translate`, the producible states are
      exactly the translations of supported inputs. */
  lemma {:induction false} TranslateReachesEveryProducibleState(st: State, viewId: Id, samplerId: Id)
    requires Producible(st)
    ensures Translate(ViewFor(st, viewId), SamplerFor(st, samplerId)) == Success(st)
  {
    var view, sampler := ViewFor(st, viewId), SamplerFor(st, samplerId);
    assert ConfigurationSupported(view, sampler);
    var r := Translate(view, sampler).value;
    assert r.textureType == st.textureType;
    assert r.textureFilter == st.textureFilter;
    assert r.mipmapFilter == st.mipmapFilter;
  }

  /** The four named filter pairs map onto the four combined filter types,
      one to one. */
  lemma {:induction false} FilterTableIsBijection(mag1: Filter, min1: Filter, mag2: Filter, min2: Filter, ft: FilterType)
    ensures ConvertFilterMode(MagFilterOf(ft), MinFilterOf(ft)) == Success(ft)
    ensures ConvertFilterMode(mag1, min1).Success? && ConvertFilterMode(mag1, min1) == ConvertFilterMode(mag2, min2) ==>
      mag1 == mag2 && min1 == min2
  {
    var r := ConvertFilterMode(MagFilterOf(ft), MinFilterOf(ft));
    assert r.Success?;
    match ft
    case FilterPoint =>
    case FilterMinLinearMagPoint =>
    case FilterMinPointMagLinear =>
    case FilterLinear =>
  }
}

=== FILE: vulkan.dfy ===
/** The Vulkan-side inputs of the sampler specialisation: the parts of an
    image view and of a sampler object that the translation reads. */
module Vulkan {

  /** Object identities are 32-bit unsigned values. */
  type Id = bv32

  /** VkImageViewType: all seven dimensionalities of Vulkan 1.1. */
  datatype ImageViewType =
    | View1D | View2D | View3D | ViewCube
    | View1DArray | View2DArray | ViewCubeArray

  /** VkFilter. `OtherFilter` stands for any enumerant the translation does
      not name, such as the cubic filter of an extension. Its `code` ranges
      over values other than those of the named enumerants (0 for nearest,
      1 for linear): `OtherFilter(0)` is not a second spelling of `Nearest`. */
  datatype Filter = Nearest | Linear | OtherFilter(code: int)

  /** VkSamplerMipmapMode, with the same catch-all for unnamed values; its
      `code` is never 0 or 1, the values of the two named modes. */
  datatype MipmapMode = MipmapNearest | MipmapLinear | OtherMipmapMode(code: int)

  /** VkSamplerAddressMode, including the mirror-clamp-to-edge mode. The
      catch-all's `code` is never 0 to 4, the values of the five named
      modes. */
  datatype AddressMode =
    | Repeat | MirroredRepeat | ClampToEdge | ClampToBorder | MirrorClampToEdge
    | OtherAddressMode(code: int)

  /** VkComponentSwizzle; only copied through to the sampler state. */
  datatype ComponentSwizzle = SwizzleIdentity | SwizzleZero | SwizzleOne | SwizzleR | SwizzleG | SwizzleB | SwizzleA

  /** VkComponentMapping of an image view. */
  datatype ComponentMapping = ComponentMapping(r: ComponentSwizzle, g: ComponentSwizzle, b: ComponentSwizzle, a: ComponentSwizzle)

  /** A pixel format, opaque except for whether it is an sRGB format. */
  datatype Format = Format(code: int, isSrgb: bool)

  datatype ImageView = ImageView(
    id: Id,
    viewType: ImageViewType,
    format: Format,
    components: ComponentMapping)

  /** A sampler object. The LOD bias is a float in the driver; only whether it
      equals zero is observable here. */
  datatype Sampler = Sampler(
    id: Id,
    magFilter: Filter,
    minFilter: Filter,
    mipmapMode: MipmapMode,
    addressModeU: AddressMode,
    addressModeV: AddressMode,
    addressModeW: AddressMode,
    compareEnable: bool,
    mipLodBiasIsZero: bool,
    anisotropyEnable: bool,
    unnormalizedCoordinates: bool)

  predicate IsCube(t: ImageViewType) {
    t == ViewCube || t == ViewCubeArray
  }
}
